=== FILE: README.md ===
# Change-o-matic kiosk controller, modelled in Dafny

Change-o-matic is a change machine. It listens to a banknote validator and a coin hopper. Both are
driven by the kassomat device daemon over publish/subscribe topics. When a note is credited, the
kiosk locks the validator and has the hopper pay the credited amount out in coins. It also keeps
asking the hopper which notes it can still change. This is the `z-test-all-coin-changes` probe.
From the answer it enables or disables the validator's note channels 1, 2 and 3.

The model covers the core of `ChangeomaticMain`:

- **Requests** (`requests.dfy`): `createSmartPayoutRequest` and the seven request builders. Each
  builder is stated against an independent `Decode`, which says how the device reads a request.
  Every builder round-trips through it.
- **Amounts** (`decimal.dfy`): `String.valueOf` on channel numbers, and
  `new BigDecimal(amount).movePointLeft(2).toPlainString()` for emptied amounts. Each comes with
  a parser, and the round trip is proved.
- **Joining** (`joiner.dfy`): the `concat` loop. It is related to a plain separator join and to a
  split, which gives it an inverse.
- **Dispatcher** (`dispatcher.dfy`): `KassomatCallbackDispatcher`, a map from correlation id to
  a one-shot callback. The callback is removed before it is invoked.
- **Probe** (`probe.dfy`): the probe callback's `handleMessage`. The three `checkAndUpdate` calls
  are a fold. Its result is proved equal to a reference selection of on and off channels, and
  that selection is proved to be an ordered partition of the channels. After the fold come the
  batched `disable-channels` and `enable-channels` publishes, the no-coins hint and the repaint.
- **Router** (`router.dfy`): the three event listeners' `switch` statements, as pure maps from
  one event to an ordered action list.
- **Kiosk** (`kiosk.dfy`): the whole process as a sequential state machine. Its state is the two
  dispatchers and a UUID counter. It proves that over any run each callback is invoked at most
  once, and that a response delivered while its callback is stored invokes it.

Conventions:

- Effects are values of `Actions.Action`: a publish, a panel hint, an inhibit update, an emptied
  amount shown, a repaint, a probe run (`RunProbe`, a `submitTestPayout` call), a callback
  registration, or a dispatch.
- JSON parsing is outside the model. A payload that fails to parse arrives as `None`.
- UUIDs are the parameter `uuid: nat -> MsgId`; `uuid(k)` is the k-th UUID drawn for a request.
  The kiosk state holds the index of the next one.
- `Injective(uuid)` (all draws distinct) is assumed only where uniqueness matters.
- A `RuntimeException` raised inside a callback is modelled as `fault: Option<nat>`. Effects from
  that index on are lost. The callback has already left the registry, and nothing escapes the
  dispatcher.

The command word of the probe request is `"z-test-all-coin-changes"`, as the code builds it at
line 424.

## Model

| member | source | states |
|---|---|---|
| Requests.SmartPayoutRequest | src/main/java/at/metalab/changeomatic/ChangeomaticMain.java:380-386 | a bare request carries its command word and its message id, and no event or correlation id |
| Requests.DoPayout | src/main/java/at/metalab/changeomatic/ChangeomaticMain.java:388-393 | the request is read by the hopper as a payout of exactly the given amount, under the given id |
| Requests.InhibitAllChannels | src/main/java/at/metalab/changeomatic/ChangeomaticMain.java:395-399 | the request is read as disabling all eight note channels "1,2,3,4,5,6,7,8" |
| Requests.EnableChannels | src/main/java/at/metalab/changeomatic/ChangeomaticMain.java:401-405 | the request is read as enabling exactly the given channel text |
| Requests.DisableChannels | src/main/java/at/metalab/changeomatic/ChangeomaticMain.java:407-411 | the request is read as disabling exactly the given channel text |
| Requests.Disable | src/main/java/at/metalab/changeomatic/ChangeomaticMain.java:413-416 | the request is read as a device disable |
| Requests.Enable | src/main/java/at/metalab/changeomatic/ChangeomaticMain.java:418-421 | the request is read as a device enable |
| Requests.ZTestAllCoinChanges | src/main/java/at/metalab/changeomatic/ChangeomaticMain.java:423-426 | the request is read as the all-coin-changes test |
| Requests.RequestRoundTrip | src/main/java/at/metalab/changeomatic/ChangeomaticMain.java:380-426 | every command the kiosk builds decodes back to itself, and the request carries its id |
| Requests.EncodeInjective | src/main/java/at/metalab/changeomatic/ChangeomaticMain.java:380-426 | two built requests are equal only if their commands and ids are equal |
| Decimal.NatToString | src/main/java/at/metalab/changeomatic/ChangeomaticMain.java:294 | a channel number's text is non-empty and all digits, with a leading zero only for 0 |
| Decimal.ParseNatToString | src/main/java/at/metalab/changeomatic/ChangeomaticMain.java:294 | reading a channel number's text back gives the number |
| Decimal.NatToStringInjective | src/main/java/at/metalab/changeomatic/ChangeomaticMain.java:294 | different channel numbers have different texts |
| Decimal.FormatCents | src/main/java/at/metalab/changeomatic/ChangeomaticMain.java:247-248 | the display text has a sign only for negative amounts, then whole units without leading zeros ("0" when under one unit), a point and two digits |
| Decimal.ParseCentsParts | src/main/java/at/metalab/changeomatic/ChangeomaticMain.java:248 | a sign, a digit whole part, a point and two digits read back as the signed whole-and-fraction value in cents |
| Decimal.ParseFormatCents | src/main/java/at/metalab/changeomatic/ChangeomaticMain.java:247-248 | reading the display text back as a decimal amount of cents gives the original amount, for every integer |
| Decimal.FormatCentsExamples | src/main/java/at/metalab/changeomatic/ChangeomaticMain.java:248 | 500 shows as "5.00", 5 as "0.05", 0 as "0.00" and -1234 as "-12.34" |
| Joiner.AppendItem | src/main/java/at/metalab/changeomatic/ChangeomaticMain.java:332-335 | one loop iteration as written: a comma only when the builder is non-empty, then the element; ConcatFromNonEmpty and ConcatIsJoin state what the loop computes |
| Joiner.ConcatFrom | src/main/java/at/metalab/changeomatic/ChangeomaticMain.java:331-336 | the loop as written, from a given builder content; ConcatFromNonEmpty states its result once the builder is non-empty |
| Joiner.Concat | src/main/java/at/metalab/changeomatic/ChangeomaticMain.java:329-338 | concat as written; ConcatIsJoin and SplitConcat state what it computes |
| Joiner.ConcatFromNonEmpty | src/main/java/at/metalab/changeomatic/ChangeomaticMain.java:331-336 | once the builder is non-empty, every further element is preceded by one comma |
| Joiner.ConcatIsJoin | src/main/java/at/metalab/changeomatic/ChangeomaticMain.java:329-338 | concat equals a comma join of the list after its leading empty elements are dropped |
| Joiner.ConcatOfNonEmpty | src/main/java/at/metalab/changeomatic/ChangeomaticMain.java:329-338 | for lists without empty elements, concat is the comma join: "" for none, the element itself for one |
| Joiner.ConcatDropsLeadingEmpty | src/main/java/at/metalab/changeomatic/ChangeomaticMain.java:332-334 | a leading empty element leaves no separator behind: ["", "a"] gives "a", not ",a" |
| Joiner.SplitJoinFields | src/main/java/at/metalab/changeomatic/ChangeomaticMain.java:329-338 | splitting a comma join at commas gives back the list, when no element contains a comma |
| Joiner.SplitConcat | src/main/java/at/metalab/changeomatic/ChangeomaticMain.java:329-338 | splitting concat's output gives back the list, when elements are non-empty and comma-free |
| Dispatcher.RegisterCallback | src/main/java/at/metalab/changeomatic/ChangeomaticMain.java:121-123 | registration stores the callback under its id, replacing any callback stored there, and keeps all other entries |
| Dispatcher.OnMessage | src/main/java/at/metalab/changeomatic/ChangeomaticMain.java:100-119 | a callback is reached iff the message parsed, has a correlId, and that id is stored; the reached callback is removed and the registry shrinks by one; otherwise nothing changes |
| Dispatcher.RegisterThenDeliver | src/main/java/at/metalab/changeomatic/ChangeomaticMain.java:100-123 | a registered callback is reached by the first response carrying its id, and its entry is gone after |
| Dispatcher.DeliverTwice | src/main/java/at/metalab/changeomatic/ChangeomaticMain.java:107-108 | delivering the same message twice reaches nothing the second time and changes nothing |
| Dispatcher.RegisterIsLocal | src/main/java/at/metalab/changeomatic/ChangeomaticMain.java:100-123 | registering one id does not change what a message for a different id reaches |
| Probe.Inhibits | src/main/java/at/metalab/changeomatic/ChangeomaticMain.java:291-299 | one inhibit update per channel and nothing else |
| Probe.InhibitsPerChannel | src/main/java/at/metalab/changeomatic/ChangeomaticMain.java:291-299 | the i-th update marks the i-th channel inhibited iff its flag does not accept |
| Probe.CheckAndUpdate | src/main/java/at/metalab/changeomatic/ChangeomaticMain.java:291-299 | one checkAndUpdate as written; CheckAllEnables, CheckAllDisables and CheckAllInhibits state what repeated calls accumulate |
| Probe.CheckAll | src/main/java/at/metalab/changeomatic/ChangeomaticMain.java:306-308 | the calls in channel order as written; CheckAllEnables, CheckAllDisables and CheckAllInhibits relate them to the reference selection |
| Probe.CheckAllEnables | src/main/java/at/metalab/changeomatic/ChangeomaticMain.java:291-299 | repeated checkAndUpdate appends exactly the accepted channels, in order, to the enable list |
| Probe.CheckAllDisables | src/main/java/at/metalab/changeomatic/ChangeomaticMain.java:291-299 | repeated checkAndUpdate appends exactly the refused channels, in order, to the disable list |
| Probe.CheckAllInhibits | src/main/java/at/metalab/changeomatic/ChangeomaticMain.java:291-299 | repeated checkAndUpdate shows one inhibit update per channel, in channel order |
| Probe.Classify | src/main/java/at/metalab/changeomatic/ChangeomaticMain.java:303-308 | the three checkAndUpdate calls yield the reference on-selection, off-selection and per-channel inhibit updates |
| Probe.SelectPartitions | src/main/java/at/metalab/changeomatic/ChangeomaticMain.java:291-299 | on and off selections of an ascending channel list together are a permutation of it, and both stay ascending |
| Probe.ClassifyPartitions | src/main/java/at/metalab/changeomatic/ChangeomaticMain.java:303-308 | channels 1, 2 and 3 are split exactly between enable and disable lists, each ascending |
| Probe.ClassifyMembership | src/main/java/at/metalab/changeomatic/ChangeomaticMain.java:306-308 | a channel is in the enable list iff its flag equals 1, and in the disable list iff not; an absent flag disables |
| Probe.ClassifyReadsThreeFlags | src/main/java/at/metalab/changeomatic/ChangeomaticMain.java:306-308 | two answers agreeing on note5ok, note10ok and note20ok are classified alike; note50ok is ignored |
| Probe.ChannelSpecRoundTrip | src/main/java/at/metalab/changeomatic/ChangeomaticMain.java:311-314 | the channels text of a batch splits back into exactly the batched channel numbers |
| Probe.ChannelSpecExamples | src/main/java/at/metalab/changeomatic/ChangeomaticMain.java:329-338 | [2] gives "2", [1,3] gives "1,3", [1,2,3] gives "1,2,3" |
| Probe.ProbeRequest | src/main/java/at/metalab/changeomatic/ChangeomaticMain.java:287 | the probe's request decodes as the all-coin-changes test under its id |
| Probe.Batches | src/main/java/at/metalab/changeomatic/ChangeomaticMain.java:310-317 | the publishing tail has one or two actions, with no registration, dispatch or probe among them |
| Probe.BatchesSends | src/main/java/at/metalab/changeomatic/ChangeomaticMain.java:310-317 | disable-channels is published iff a channel is off, before enable-channels, which is published iff a channel is on |
| Probe.BatchesNoCoins | src/main/java/at/metalab/changeomatic/ChangeomaticMain.java:313-317 | the no-coins hint is given exactly once when no channel is on, as the last batch action, and not at all otherwise |
| Probe.Respond | src/main/java/at/metalab/changeomatic/ChangeomaticMain.java:302-320 | the inhibit updates come first, unchanged, and the repaint comes last |
| Probe.RespondSends | src/main/java/at/metalab/changeomatic/ChangeomaticMain.java:310-319 | the inhibit updates and the repaint publish nothing beyond the batches |
| Probe.RespondPlain | src/main/java/at/metalab/changeomatic/ChangeomaticMain.java:302-320 | when the inhibit updates neither probe, register nor dispatch, neither does any action of the response |
| Probe.RespondNoCoins | src/main/java/at/metalab/changeomatic/ChangeomaticMain.java:313-319 | the inhibit updates and the repaint add no no-coins hint beyond the batches', and the hint, when given, stands just before the repaint |
| Probe.HandleResponse | src/main/java/at/metalab/changeomatic/ChangeomaticMain.java:302-320 | the callback shows the inhibit state of channels 1 to 3 first and repaints last, and never registers, dispatches or probes |
| Probe.HandleResponseSends | src/main/java/at/metalab/changeomatic/ChangeomaticMain.java:310-317 | the callback publishes exactly the off-channel disable batch, if any, then the on-channel enable batch, if any |
| Probe.HandleResponseNoCoins | src/main/java/at/metalab/changeomatic/ChangeomaticMain.java:313-317 | the no-coins hint is shown exactly once when no channel's flag is 1, in the enable publish's place just before the repaint, and never otherwise |
| Probe.HandleResponseLength | src/main/java/at/metalab/changeomatic/ChangeomaticMain.java:302-320 | the callback does exactly three inhibit updates, its sends, the no-coins hint when nothing is enabled, and one repaint; nothing else |
| Probe.ProbeMixedExample | src/main/java/at/metalab/changeomatic/ChangeomaticMain.java:302-320 | flags (1, 0, 1) publish disable "2", then enable "1,3", with no no-coins hint |
| Probe.ProbeNoCoinsExample | src/main/java/at/metalab/changeomatic/ChangeomaticMain.java:302-320 | flags (0, 0, 0) publish only disable "1,2,3", and the no-coins hint is shown exactly once |
| Router.PayoutListener | src/main/java/at/metalab/changeomatic/ChangeomaticMain.java:170-180 | the payout switch as written; Route, ProbeOnlyEvents and PanelEvents state its outcomes |
| Router.ValidatorListener | src/main/java/at/metalab/changeomatic/ChangeomaticMain.java:195-220 | the validator switch as written; Route, CreditOrder, CreditWithoutAmount and PanelEvents state its outcomes |
| Router.HopperListener | src/main/java/at/metalab/changeomatic/ChangeomaticMain.java:234-268 | the hopper switch as written; Route, DisabledReenables, EmptiedDisplay, PanelEvents, ProbeOnlyEvents and FloatedReprobes state its outcomes |
| Router.Route | src/main/java/at/metalab/changeomatic/ChangeomaticMain.java:163-273 | an event has no effect iff it is missing, unlisted, "read", or an emptied report without amount; a probe runs iff the event is "started", "floated", "cashbox paid" or "coin credit", and then last; listeners never register or dispatch |
| Router.OnEvent | src/main/java/at/metalab/changeomatic/ChangeomaticMain.java:165-184 | a payload that does not parse has no effect; otherwise the event is routed by its name and amount |
| Router.PanelEvents | src/main/java/at/metalab/changeomatic/ChangeomaticMain.java:176-242 | "exiting" and "rejecting" show sorry, "reading" please-wait, "rejected" the idle hint, "dispensing" the dispensing hint; each then repaints and does nothing else |
| Router.ProbeOnlyEvents | src/main/java/at/metalab/changeomatic/ChangeomaticMain.java:171-174 | "started" on the payout topic and "coin credit" on the hopper run the probe and do nothing else (also lines 264-267) |
| Router.CreditOrder | src/main/java/at/metalab/changeomatic/ChangeomaticMain.java:196-201 | a credit publishes disable-all-channels and disable to the validator, then a payout of the credited amount to the hopper, in that order, and does nothing else |
| Router.CreditWithoutAmount | src/main/java/at/metalab/changeomatic/ChangeomaticMain.java:196-200 | a credit without an amount still publishes both validator requests and does nothing else: only the payout is lost |
| Router.RouteSends | src/main/java/at/metalab/changeomatic/ChangeomaticMain.java:163-273 | a listener publishes directly iff the event is a validator "credit" or a hopper "disabled" |
| Router.DisabledReenables | src/main/java/at/metalab/changeomatic/ChangeomaticMain.java:235-237 | a hopper "disabled" publishes exactly one enable request, under a freshly drawn id, and does nothing else |
| Router.EmptiedDisplay | src/main/java/at/metalab/changeomatic/ChangeomaticMain.java:244-250 | an emptied report with an amount shows one text, and that text reads back as the reported amount of cents |
| Changeomatic.SubmitTestPayout | src/main/java/at/metalab/changeomatic/ChangeomaticMain.java:284-327 | the probe draws one id, registers its callback under that id with the hopper dispatcher, then publishes the test request under that id |
| Changeomatic.Perform | src/main/java/at/metalab/changeomatic/ChangeomaticMain.java:260-266 | carrying out listener actions leaves the validator registry alone, and adds hopper callbacks only under freshly drawn ids |
| Changeomatic.Truncate | src/main/java/at/metalab/changeomatic/ChangeomaticMain.java:110-114 | a fault keeps exactly the effects before it, and no fault keeps all of them |
| Changeomatic.Invoke | src/main/java/at/metalab/changeomatic/ChangeomaticMain.java:107-114 | invoking a callback leaves the registries as they were after its removal, and its dispatch is recorded first and only once |
| Changeomatic.Start | src/main/java/at/metalab/changeomatic/ChangeomaticMain.java:149-161 | start-up shows please-wait, then registers and publishes the first probe; the invariant holds and only that probe's id is stored |
| Changeomatic.Step | src/main/java/at/metalab/changeomatic/ChangeomaticMain.java:100-119 | one delivery as written: a response goes through onMessage and the invoked callback, an event through its listener (lines 163-273); StepFacts, ResponseDispatch, UnmatchedResponse and FaultContained state its outcomes |
| Changeomatic.Run | src/main/java/at/metalab/changeomatic/ChangeomaticMain.java:146-147 | the deliveries in order, effects accumulated; RunOnceOnly and AtMostOnce state what holds over any run |
| Changeomatic.StepFacts | src/main/java/at/metalab/changeomatic/ChangeomaticMain.java:97-123 | each delivery keeps the invariant and adds callbacks only under fresh ids; it invokes at most one callback, which was stored before and is gone after |
| Changeomatic.StepOnceOnly | src/main/java/at/metalab/changeomatic/ChangeomaticMain.java:107 | with distinct UUIDs, one more delivery keeps every callback invoked at most once |
| Changeomatic.RunOnceOnly | src/main/java/at/metalab/changeomatic/ChangeomaticMain.java:107 | with distinct UUIDs, any sequence of deliveries keeps every callback invoked at most once |
| Changeomatic.AtMostOnce | src/main/java/at/metalab/changeomatic/ChangeomaticMain.java:97-123 | from start-up, with any deliveries (duplicates, faults, events), no callback is ever invoked twice |
| Changeomatic.ResponseDispatch | src/main/java/at/metalab/changeomatic/ChangeomaticMain.java:104-115 | a response for a stored id runs the probe callback's full effects and removes it; a redelivery does nothing |
| Changeomatic.UnmatchedResponse | src/main/java/at/metalab/changeomatic/ChangeomaticMain.java:104-118 | an unparsable response, one without correlId, or one for an unknown id changes nothing and has no effect |
| Changeomatic.ValidatorResponsesIgnored | src/main/java/at/metalab/changeomatic/ChangeomaticMain.java:147 | no validator response ever reaches a callback, since none is registered there |
| Changeomatic.FaultContained | src/main/java/at/metalab/changeomatic/ChangeomaticMain.java:110-114 | a faulting callback leaves the same state as a clean one, and its effects are a prefix of the clean effects |
| Changeomatic.InvokeFaultPrefix | src/main/java/at/metalab/changeomatic/ChangeomaticMain.java:110-114 | inside the invocation, a fault only cuts the effects short |
| Changeomatic.ProbeRegistersFirst | src/main/java/at/metalab/changeomatic/ChangeomaticMain.java:325-326 | the probe registers before it publishes, and the hopper's answer with that correlId reaches the probe's callback |
| Changeomatic.ProbeIdFresh | src/main/java/at/metalab/changeomatic/ChangeomaticMain.java:289 | with distinct UUIDs, a new probe's id is not already registered, so no pending callback is overwritten |
| Changeomatic.FloatedReprobes | src/main/java/at/metalab/changeomatic/ChangeomaticMain.java:252-262 | a hopper "floated" or "cashbox paid" shows please-wait and repaints, then registers and publishes a new probe |

## Left out

- Redis transport (`main`, lines 126-147 and 275-279): topics are named by `Actions.Topic`, and
  the bus is the sequence of inputs to `Changeomatic.Run`.
- Swing GUI and the start-up wait/notify handshake (lines 149-158, 428-468): panel calls become
  actions (`Hint`, `Repaint`, `UpdateInhibit`, `UpdateEmptied`). The frame itself is outside
  the model.
- Jackson serialisation (lines 42-56, 78-92): parse failure is the `None` input. `Decode` is an
  independent reading of a request, not JSON. Removing spaces in `stringify` is not modelled.
- `UUID.randomUUID` (lines 375, 383): replaced by the `uuid` parameter. The UUIDs drawn for the
  "starting-up" and "started" status events (lines 134, 155) are not counted, so the first probe
  uses `uuid(0)`. A faulted callback still advances the index past the draws it never made.
  Neither matters to the proofs, which use only that draws are distinct.
- `synchronized` on the registry and on `submitTestPayout` (lines 97-98, 284): each delivery is
  one atomic step. Listener threads that interleave within a step are not modelled.
- `ChangeomaticJson` and `createChangeomaticEvent`, including the "starting-up" and "started"
  status events (lines 35-57, 134, 155, 372-378): status publishing only; no decision depends
  on it.
- `KassomatRequestCallback.onMessage` (lines 348-358): no code path invokes it, because callbacks
  are reached only through the dispatcher.
- `oops` and logging (lines 367-370): they print and change nothing.
- Changeomatic.Step: faults inside event listeners other than the credit's missing amount are
  not modelled. A bus failure in the middle of a listener would cut its actions short, as
  `Truncate` does for callbacks.
- Changeomatic.AtMostOnce: assumes that UUID draws never repeat, which `UUID.randomUUID` gives
  only with overwhelming probability.

=== FILE: actions.dfy ===
/**
 * The effects a handled message has on the outside world: publishes on the
 * request topics, calls on the front panel, and the probe bookkeeping.
 */
module Actions {
  import opened Messages
  import opened Requests

  /** The two request topics the kiosk publishes on. */
  datatype Topic = HopperRequest | ValidatorRequest

  /**
   * The panel hints: `hintPleaseWait`, `hintSorry`, `hintDispensing`,
   * `hintNoCoins`, and `updateHint` (the idle prompt).
   */
  datatype Prompt = PleaseWait | Sorry | Dispensing | NoCoins | Idle

  datatype Action =
    | Publish(topic: Topic, request: KassomatJson)
    | Hint(prompt: Prompt)
    | Repaint
    | UpdateInhibit(channel: nat, inhibited: bool)
    | UpdateEmptied(text: string)
    /** a call of `submitTestPayout`, expanded by the kiosk */
    | RunProbe
    /** a callback stored in the hopper response dispatcher */
    | Register(correlId: MsgId)
    /** a stored callback taken out and invoked */
    | Dispatched(correlId: MsgId)

  /** The output of a handler: its actions in order, and the next unused UUID index. */
  datatype Routed = Routed(actions: seq<Action>, next: nat)

  /** Actions that neither touch the dispatchers nor start a probe. */
  predicate Plain(actions: seq<Action>) {
    forall a :: a in actions ==> !a.RunProbe? && !a.Register? && !a.Dispatched?
  }

  lemma PlainAppend(a: seq<Action>, b: seq<Action>)
    requires Plain(a) && Plain(b)
    ensures Plain(a + b)
  {
  }

  /** A publish as its device reads it. */
  datatype Sent = Sent(topic: Topic, command: Option<Command>)

  /** The publishes among `actions`, in order. */
  function Sends(actions: seq<Action>): (r: seq<Sent>)
    ensures |r| <= |actions|
    decreases |actions|
  {
    if |actions| == 0 then []
    else
      (if actions[0].Publish? then [Sent(actions[0].topic, Decode(actions[0].request))] else [])
      + Sends(actions[1..])
  }

  lemma {:induction false} SendsAppend(a: seq<Action>, b: seq<Action>)
    ensures Sends(a + b) == Sends(a) + Sends(b)
    decreases |a|
  {
    if |a| != 0 {
      assert (a + b)[1..] == a[1..] + b;
      SendsAppend(a[1..], b);
    } else {
      assert a + b == b;
    }
  }

  /** Actions with no publish send nothing. */
  lemma {:induction false} SendsNone(a: seq<Action>)
    requires forall i :: 0 <= i < |a| ==> !a[i].Publish?
    ensures Sends(a) == []
    decreases |a|
  {
    if |a| != 0 {
      SendsNone(a[1..]);
    }
  }
}

=== FILE: decimal.dfy ===
/**
 * Decimal text for integers: `String.valueOf` of a channel number and the
 * emptied-amount display, `new BigDecimal(cents).movePointLeft(2).toPlainString()`.
 */
module Decimal {
  import opened Messages

  predicate IsDigit(c: char) {
    '0' <= c <= '9'
  }

  predicate AllDigits(s: string) {
    forall i :: 0 <= i < |s| ==> IsDigit(s[i])
  }

  function DigitChar(d: nat): (c: char)
    requires d < 10
    ensures IsDigit(c) && c as int - '0' as int == d
    ensures c == '0' <==> d == 0
  {
    ('0' as int + d) as char
  }

  function DigitValue(c: char): (d: nat)
    requires IsDigit(c)
    ensures d < 10 && DigitChar(d) == c
  {
    c as int - '0' as int
  }

  /** The shortest decimal numeral of `n`, as `String.valueOf` prints it. */
  function NatToString(n: nat): (r: string)
    ensures |r| >= 1 && AllDigits(r)
    ensures r[0] == '0' <==> n == 0
    ensures n == 0 ==> r == "0"
    decreases n
  {
    if n < 10 then [DigitChar(n)] else NatToString(n / 10) + [DigitChar(n % 10)]
  }

  /** The value of a numeral; the reading a device applies to a channel number. */
  function ParseNat(s: string): nat
    requires AllDigits(s)
    decreases |s|
  {
    if |s| == 0 then 0 else ParseNat(s[..|s| - 1]) * 10 + DigitValue(s[|s| - 1])
  }

  lemma {:induction false} ParseNatToString(n: nat)
    ensures ParseNat(NatToString(n)) == n
    decreases n
  {
    var s := NatToString(n);
    if n < 10 {
      assert s[..|s| - 1] == [];
    } else {
      assert s[..|s| - 1] == NatToString(n / 10);
      ParseNatToString(n / 10);
    }
  }

  /** Two numerals of distinct numbers differ. */
  lemma NatToStringInjective(m: nat, n: nat)
    requires NatToString(m) == NatToString(n)
    ensures m == n
  {
    ParseNatToString(m);
    ParseNatToString(n);
  }

  /** The two fraction digits of a cent amount, zero-padded. */
  function TwoDigits(n: nat): (r: string)
    requires n < 100
    ensures |r| == 2 && AllDigits(r)
  {
    [DigitChar(n / 10), DigitChar(n % 10)]
  }

  /**
   * `new BigDecimal(cents).movePointLeft(2).toPlainString()`: the sign, the
   * whole units, a point and exactly two fraction digits.
   */
  function FormatCents(cents: int): (r: string)
    ensures |r| >= 4 && r[|r| - 3] == '.' && AllDigits(r[|r| - 2..])
    ensures r[0] == '-' <==> cents < 0
    ensures var w := r[(if cents < 0 then 1 else 0)..|r| - 3];
      |w| >= 1 && AllDigits(w) && (w[0] == '0' ==> |w| == 1)
  {
    var magnitude: nat := if cents < 0 then -cents else cents;
    var sign := if cents < 0 then "-" else "";
    var w := NatToString(magnitude / 100);
    var r := sign + w + "." + TwoDigits(magnitude % 100);
    assert r[|sign|..|r| - 3] == w;
    r
  }

  /** Reads back a decimal amount written with exactly two fraction digits, in cents. */
  function ParseCents(s: string): Option<int> {
    if |s| < 4 || s[|s| - 3] != '.' then None
    else
      var negative := s[0] == '-';
      CentsOf(negative, if negative then s[1..|s| - 3] else s[..|s| - 3], s[|s| - 2..])
  }

  /** The amount in cents of a sign, a whole part and a fraction part, if both parts are digits. */
  function CentsOf(negative: bool, whole: string, fraction: string): Option<int> {
    if |whole| == 0 || !AllDigits(whole) || !AllDigits(fraction) then None
    else
      var magnitude := ParseNat(whole) * 100 + ParseNat(fraction);
      Some(if negative then -magnitude else magnitude)
  }

  lemma TwoDigitsValue(n: nat)
    requires n < 100
    ensures ParseNat(TwoDigits(n)) == n
  {
    var s := TwoDigits(n);
    var head := s[..1];
    assert head == [DigitChar(n / 10)] && head[..0] == [];
    assert ParseNat(head) == ParseNat(head[..0]) * 10 + DigitValue(head[0]) == n / 10;
    assert s[..|s| - 1] == head;
  }

  /** A sign, whole digits, a point and two fraction digits read back as their value in cents. */
  lemma ParseCentsParts(negative: bool, w: string, f: string)
    requires |w| >= 1 && AllDigits(w) && |f| == 2 && AllDigits(f)
    ensures ParseCents((if negative then "-" else "") + w + "." + f) == CentsOf(negative, w, f)
  {
    var s := (if negative then "-" else "") + w + "." + f;
    var start := if negative then 1 else 0;
    assert |s| == start + |w| + 3;
    assert s[|s| - 3] == '.';
    assert s[|s| - 2..] == f;
    assert s[start..|s| - 3] == w;
    assert s[0] == '-' <==> negative by {
      if !negative { assert s[0] == w[0]; }
    }
    if !negative {
      assert s[..|s| - 3] == s[start..|s| - 3];
    }
  }

  /** The emptied-amount text determines the amount: reading it back gives the cents. */
  lemma ParseFormatCents(cents: int)
    ensures ParseCents(FormatCents(cents)) == Some(cents)
  {
    var magnitude: nat := if cents < 0 then -cents else cents;
    var whole, fraction := magnitude / 100, magnitude % 100;
    assert whole * 100 + fraction == magnitude;
    var w, f := NatToString(whole), TwoDigits(fraction);
    assert FormatCents(cents) == (if cents < 0 then "-" else "") + w + "." + f;
    ParseCentsParts(cents < 0, w, f);
    ParseNatToString(whole);
    TwoDigitsValue(fraction);
    assert CentsOf(cents < 0, w, f) == Some(cents);
  }

  /** The amounts as the panel shows them: whole units, a point, two fraction digits. */
  lemma FormatCentsExamples()
    ensures FormatCents(500) == "5.00"
    ensures FormatCents(5) == "0.05"
    ensures FormatCents(0) == "0.00"
    ensures FormatCents(-1234) == "-12.34"
  {
    assert NatToString(12) == NatToString(1) + "2";
  }
}

=== FILE: dispatcher.dfy ===
/**
 * `KassomatCallbackDispatcher`: a registry from correlation id to a one-shot
 * callback. The kiosk owns two of them, one for hopper responses and one for
 * validator responses.
 */
module Dispatcher {
  import opened Messages

  /** The result of one incoming message: the registry afterwards and the callback it reached, if any. */
  datatype Delivery<H> = Delivery(callbacks: map<MsgId, H>, invoked: Option<H>)

  /** The message parsed, names a correlation id, and that id has a stored callback. */
  predicate Matches<H>(callbacks: map<MsgId, H>, parsed: Option<KassomatJson>) {
    parsed.Some? && parsed.value.correlId.Some? && parsed.value.correlId.value in callbacks
  }

  /** `registerCallback`: stores `h` under `id`, replacing any callback stored there. */
  function RegisterCallback<H>(callbacks: map<MsgId, H>, id: MsgId, h: H): (r: map<MsgId, H>)
    ensures r.Keys == callbacks.Keys + {id}
    ensures r[id] == h
    ensures forall k :: k in callbacks && k != id ==> r[k] == callbacks[k]
  {
    callbacks[id := h]
  }

  /**
   * `onMessage`: a payload that did not parse (`None`) is dropped; otherwise the
   * callback stored under the message's `correlId` is removed and handed back
   * for invocation. A message without `correlId` looks up the null key, which
   * is never registered, and reaches nothing.
   */
  function OnMessage<H>(callbacks: map<MsgId, H>, parsed: Option<KassomatJson>): (d: Delivery<H>)
    ensures d.invoked.Some? <==> Matches(callbacks, parsed)
    ensures Matches(callbacks, parsed) ==>
      var c := parsed.value.correlId.value;
      d.invoked.value == callbacks[c] && d.callbacks == callbacks - {c} && |d.callbacks| == |callbacks| - 1
    ensures !Matches(callbacks, parsed) ==> d.callbacks == callbacks
  {
    match parsed
    case None => Delivery(callbacks, None)
    case Some(m) =>
      match m.correlId
      case None => Delivery(callbacks, None)
      case Some(c) =>
        if c in callbacks then Delivery(callbacks - {c}, Some(callbacks[c]))
        else Delivery(callbacks, None)
  }

  /** A registered callback is reached by the first response that carries its id, and is gone afterwards. */
  lemma RegisterThenDeliver<H>(callbacks: map<MsgId, H>, id: MsgId, h: H, m: KassomatJson)
    requires m.correlId == Some(id)
    ensures var d := OnMessage(RegisterCallback(callbacks, id, h), Some(m));
      d.invoked == Some(h) && d.callbacks == callbacks - {id}
  {
    var r := RegisterCallback(callbacks, id, h);
    assert r - {id} == callbacks - {id};
  }

  /** Exactly once: delivering the same response again reaches nothing and changes nothing. */
  lemma DeliverTwice<H>(callbacks: map<MsgId, H>, parsed: Option<KassomatJson>)
    ensures var d := OnMessage(callbacks, parsed);
      var d2 := OnMessage(d.callbacks, parsed);
      d2.invoked.None? && d2.callbacks == d.callbacks
  {
  }

  /** Registering one id does not change what a response for another id reaches. */
  lemma RegisterIsLocal<H>(callbacks: map<MsgId, H>, id: MsgId, h: H, parsed: Option<KassomatJson>)
    requires parsed.Some? ==> parsed.value.correlId != Some(id)
    ensures var d := OnMessage(RegisterCallback(callbacks, id, h), parsed);
      var e := OnMessage(callbacks, parsed);
      d.invoked == e.invoked && d.callbacks == RegisterCallback(e.callbacks, id, h)
  {
    if Matches(callbacks, parsed) {
      var c := parsed.value.correlId.value;
      assert callbacks[id := h] - {c} == (callbacks - {c})[id := h];
    }
  }
}

=== FILE: joiner.dfy ===
/** The comma joiner `concat` used for channel lists, and its inverse. */
module Joiner {

  const SEP: char := ','

  /** Reference definition: the elements with one separator between neighbours. */
  function Join(l: seq<string>): string
    decreases |l|
  {
    if |l| == 0 then "" else if |l| == 1 then l[0] else l[0] + [SEP] + Join(l[1..])
  }

  /** One pass of `concat`'s loop: a separator goes in only when the builder is not empty. */
  function AppendItem(b: string, s: string): string {
    if |b| != 0 then b + [SEP] + s else b + s
  }

  /** `concat`'s loop, from builder contents `b`, over the remaining elements. */
  function ConcatFrom(b: string, l: seq<string>): string
    decreases |l|
  {
    if |l| == 0 then b else ConcatFrom(AppendItem(b, l[0]), l[1..])
  }

  /** `concat`, as written: a `StringBuilder` that starts empty. */
  function Concat(l: seq<string>): string {
    ConcatFrom("", l)
  }

  /** The list without its leading empty elements. */
  function DropLeadingEmpty(l: seq<string>): (r: seq<string>)
    ensures |r| == 0 || r[0] != ""
    ensures forall i :: 0 <= i < |r| ==> r[i] in l
    decreases |l|
  {
    if |l| > 0 && l[0] == "" then DropLeadingEmpty(l[1..]) else l
  }

  predicate NoneEmpty(l: seq<string>) {
    forall i :: 0 <= i < |l| ==> l[i] != ""
  }

  predicate NoSeparator(l: seq<string>) {
    forall i :: 0 <= i < |l| ==> SEP !in l[i]
  }

  /** Once the builder holds text, every further element is preceded by a separator. */
  lemma {:induction false} ConcatFromNonEmpty(b: string, l: seq<string>)
    requires b != ""
    ensures ConcatFrom(b, l) == if |l| == 0 then b else b + [SEP] + Join(l)
    decreases |l|
  {
    if |l| != 0 {
      var b' := b + [SEP] + l[0];
      ConcatFromNonEmpty(b', l[1..]);
      if |l| > 1 {
        assert b' + [SEP] + Join(l[1..]) == b + [SEP] + (l[0] + [SEP] + Join(l[1..]));
      }
    }
  }

  /** `concat` joins the list once leading empty elements are dropped: those leave no separator. */
  lemma {:induction false} ConcatIsJoin(l: seq<string>)
    ensures Concat(l) == Join(DropLeadingEmpty(l))
    decreases |l|
  {
    if |l| != 0 {
      if l[0] == "" {
        assert AppendItem("", l[0]) == "";
        ConcatIsJoin(l[1..]);
      } else {
        assert AppendItem("", l[0]) == l[0];
        ConcatFromNonEmpty(l[0], l[1..]);
      }
    }
  }

  /** For lists of non-empty elements `concat` is the comma join; `[]` gives "" and `[s]` gives `s`. */
  lemma ConcatOfNonEmpty(l: seq<string>)
    requires NoneEmpty(l)
    ensures Concat(l) == Join(l)
    ensures |l| == 0 ==> Concat(l) == ""
    ensures |l| == 1 ==> Concat(l) == l[0]
  {
    ConcatIsJoin(l);
  }

  /** An empty first element leaves no trace: `concat(["", "a"])` is "a", not ",a". */
  lemma ConcatDropsLeadingEmpty()
    ensures Concat(["", "a"]) == "a"
    ensures Join(["", "a"]) == ",a"
  {
    ConcatIsJoin(["", "a"]);
    assert DropLeadingEmpty(["", "a"]) == ["a"];
  }

  /** The comma-separated fields of a text; always at least one field. */
  function SplitFields(s: string): (r: seq<string>)
    ensures |r| >= 1
    decreases |s|
  {
    if |s| == 0 then [""]
    else if s[0] == SEP then [""] + SplitFields(s[1..])
    else
      var t := SplitFields(s[1..]);
      [[s[0]] + t[0]] + t[1..]
  }

  /** Splits a channel list on commas; the empty text is the empty list. */
  function Split(s: string): seq<string> {
    if |s| == 0 then [] else SplitFields(s)
  }

  lemma {:induction false} SplitFieldsPrefix(x: string, rest: seq<string>, tail: string)
    requires SEP !in x
    requires SplitFields(tail) == [""] + rest
    ensures SplitFields(x + tail) == [x] + rest
    decreases |x|
  {
    if |x| != 0 {
      assert (x + tail)[1..] == x[1..] + tail;
      SplitFieldsPrefix(x[1..], rest, tail);
      assert [x[0]] + x[1..] == x;
    } else {
      assert x + tail == tail;
    }
  }

  lemma {:induction false} SplitJoinFields(l: seq<string>)
    requires |l| >= 1 && NoSeparator(l)
    ensures SplitFields(Join(l)) == l
    decreases |l|
  {
    if |l| == 1 {
      assert SplitFields("") == [""];
      SplitFieldsPrefix(l[0], [], "");
      assert l[0] + "" == l[0];
    } else {
      var tail := [SEP] + Join(l[1..]);
      SplitJoinFields(l[1..]);
      assert tail[1..] == Join(l[1..]);
      assert SplitFields(tail) == [""] + l[1..];
      SplitFieldsPrefix(l[0], l[1..], tail);
      assert l[0] + [SEP] + Join(l[1..]) == l[0] + tail;
      assert [l[0]] + l[1..] == l;
    }
  }

  /** Splitting `concat`'s result on commas recovers a list of non-empty, comma-free elements. */
  lemma SplitConcat(l: seq<string>)
    requires NoneEmpty(l) && NoSeparator(l)
    ensures Split(Concat(l)) == l
  {
    ConcatOfNonEmpty(l);
    if |l| != 0 {
      SplitJoinFields(l);
      assert |Join(l)| != 0 by {
        if |l| == 1 {
        } else {
          assert |Join(l)| >= |l[0]|;
        }
      }
    }
  }
}

=== FILE: kiosk.dfy ===
/**
 * The whole kiosk as a sequential state machine: the hopper and validator
 * response dispatchers, the UUID counter, and one step per message delivered
 * on a response or event topic.
 */
module Changeomatic {
  import opened Messages
  import opened Requests
  import opened Actions
  import opened Dispatcher
  import opened Probe
  import opened Router

  /**
   * The two process-wide dispatchers, and the index of the next request id:
   * the k-th UUID drawn for a request is `uuid(k)`.
   */
  datatype Kiosk = Kiosk(hopper: map<MsgId, Handler>, validator: map<MsgId, Handler>, next: nat)

  /** One message delivered to one listener; `parsed` is `None` when the payload did not parse. */
  datatype Input =
    /** `fault == Some(j)`: the bus or the panel throws at the callback's j-th effect */
    | HopperResponse(parsed: Option<KassomatJson>, fault: Option<nat>)
    | ValidatorResponse(parsed: Option<KassomatJson>, fault: Option<nat>)
    | DeviceEvent(source: Source, parsed: Option<KassomatJson>)

  /** The state after a step, and the effects of the step in order. */
  datatype Outcome = Outcome(kiosk: Kiosk, effects: seq<Action>)

  /** The UUIDs drawn with indices in `[lo, hi)`. */
  function Issued(uuid: nat -> MsgId, lo: nat, hi: nat): set<MsgId> {
    set j: nat | lo <= j < hi :: uuid(j)
  }

  /** No two UUID draws coincide. */
  ghost predicate Injective(uuid: nat -> MsgId) {
    forall i: nat, j: nat :: uuid(i) == uuid(j) ==> i == j
  }

  /**
   * The kiosk's invariant: nothing is ever registered with the validator
   * dispatcher, each hopper callback is stored under the id it is bound to,
   * and every stored id is a UUID already drawn.
   */
  ghost predicate Valid(k: Kiosk, uuid: nat -> MsgId) {
    && k.validator == map[]
    && (forall id :: id in k.hopper ==> k.hopper[id] == ProbeCallback(id))
    && k.hopper.Keys <= Issued(uuid, 0, k.next)
  }

  /**
   * `submitTestPayout`: draws a UUID for a `z-test-all-coin-changes` request,
   * registers the probe callback under it with the hopper dispatcher, and
   * only then publishes the request.
   */
  function SubmitTestPayout(k: Kiosk, uuid: nat -> MsgId): (o: Outcome)
    ensures var id := uuid(k.next);
      && o.kiosk.next == k.next + 1
      && o.kiosk.hopper == RegisterCallback(k.hopper, id, ProbeCallback(id))
      && o.kiosk.validator == k.validator
      && |o.effects| == 2
      && o.effects[0] == Register(id)
      && o.effects[1].Publish? && o.effects[1].topic == HopperRequest
      && Decode(o.effects[1].request) == Some(TestAllCoinChanges)
      && o.effects[1].request.msgId == Some(id)
  {
    var id := uuid(k.next);
    Outcome(k.(hopper := RegisterCallback(k.hopper, id, ProbeCallback(id)), next := k.next + 1),
            [Register(id), Publish(HopperRequest, ProbeRequest(id))])
  }

  /**
   * Carries out a listener's actions in order; a `RunProbe` becomes a probe
   * cycle, registration and publish, at that point.
   */
  function Perform(k: Kiosk, actions: seq<Action>, uuid: nat -> MsgId): (o: Outcome)
    ensures o.kiosk.validator == k.validator
    ensures k.next <= o.kiosk.next
    ensures forall id :: id in o.kiosk.hopper ==>
      || (id in k.hopper && o.kiosk.hopper[id] == k.hopper[id])
      || (id in Issued(uuid, k.next, o.kiosk.next) && o.kiosk.hopper[id] == ProbeCallback(id))
    ensures (forall a :: a in actions ==> !a.Dispatched?) ==> forall a :: a in o.effects ==> !a.Dispatched?
    decreases |actions|
  {
    if |actions| == 0 then Outcome(k, [])
    else if actions[0].RunProbe? then
      var probe := SubmitTestPayout(k, uuid);
      var rest := Perform(probe.kiosk, actions[1..], uuid);
      assert uuid(k.next) in Issued(uuid, k.next, rest.kiosk.next);
      assert forall a :: a in actions[1..] ==> a in actions;
      Outcome(rest.kiosk, probe.effects + rest.effects)
    else
      var rest := Perform(k, actions[1..], uuid);
      assert forall a :: a in actions[1..] ==> a in actions;
      Outcome(rest.kiosk, [actions[0]] + rest.effects)
  }

  /** The effects that happened before the fault, if one is raised. */
  function Truncate(effects: seq<Action>, fault: Option<nat>): (r: seq<Action>)
    ensures |r| <= |effects| && r == effects[..|r|]
    ensures fault.None? ==> r == effects
    ensures fault.Some? && fault.value < |effects| ==> |r| == fault.value
  {
    match fault
    case None => effects
    case Some(j) => if j < |effects| then effects[..j] else effects
  }

  /**
   * Invokes the callback taken out for correlation id `c`. A `RuntimeException`
   * it raises is caught by the dispatcher: the effects before it stand, the
   * rest are lost, and nothing escapes.
   */
  function Invoke(k: Kiosk, c: MsgId, m: KassomatJson, fault: Option<nat>, uuid: nat -> MsgId): (o: Outcome)
    ensures o.kiosk.hopper == k.hopper && o.kiosk.validator == k.validator && k.next <= o.kiosk.next
    ensures |o.effects| >= 1 && o.effects[0] == Dispatched(c)
    ensures forall a :: a in o.effects[1..] ==> !a.Dispatched? && !a.Register?
  {
    var r := HandleResponse(m, uuid, k.next);
    var done := Truncate(r.actions, fault);
    assert forall a :: a in done ==> a in r.actions;
    assert ([Dispatched(c)] + done)[1..] == done;
    Outcome(k.(next := r.next), [Dispatched(c)] + done)
  }

  /** One message delivered to the kiosk. */
  function Step(k: Kiosk, input: Input, uuid: nat -> MsgId): Outcome {
    match input
    case HopperResponse(parsed, fault) =>
      var d := OnMessage(k.hopper, parsed);
      var k1 := k.(hopper := d.callbacks);
      if d.invoked.Some? then Invoke(k1, parsed.value.correlId.value, parsed.value, fault, uuid)
      else Outcome(k1, [])
    case ValidatorResponse(parsed, fault) =>
      var d := OnMessage(k.validator, parsed);
      var k1 := k.(validator := d.callbacks);
      if d.invoked.Some? then Invoke(k1, parsed.value.correlId.value, parsed.value, fault, uuid)
      else Outcome(k1, [])
    case DeviceEvent(src, parsed) =>
      var r := OnEvent(src, parsed, uuid, k.next);
      Perform(k.(next := r.next), r.actions, uuid)
  }

  /** Start-up once the panel is up: the please-wait hint, then the initial probe. */
  function Start(uuid: nat -> MsgId): (o: Outcome)
    ensures Valid(o.kiosk, uuid)
    ensures o.kiosk.hopper.Keys == {uuid(0)}
    ensures |o.effects| == 3 && o.effects[0] == Hint(PleaseWait) && o.effects[1] == Register(uuid(0))
    ensures o.effects[2] == Publish(HopperRequest, ProbeRequest(uuid(0)))
  {
    var probe := SubmitTestPayout(Kiosk(map[], map[], 0), uuid);
    assert uuid(0) in Issued(uuid, 0, 1);
    Outcome(probe.kiosk, [Hint(PleaseWait)] + probe.effects)
  }

  /** The kiosk's life: each input in turn, effects accumulated in order. */
  function Run(o: Outcome, inputs: seq<Input>, uuid: nat -> MsgId): Outcome
    decreases |inputs|
  {
    if |inputs| == 0 then o
    else
      var s := Step(o.kiosk, inputs[0], uuid);
      Run(Outcome(s.kiosk, o.effects + s.effects), inputs[1..], uuid)
  }

  /** The number of times the callback for `c` was invoked. */
  function Dispatches(effects: seq<Action>, c: MsgId): nat
    decreases |effects|
  {
    if |effects| == 0 then 0
    else (if effects[0] == Dispatched(c) then 1 else 0) + Dispatches(effects[1..], c)
  }

  lemma {:induction false} DispatchesAppend(a: seq<Action>, b: seq<Action>, c: MsgId)
    ensures Dispatches(a + b, c) == Dispatches(a, c) + Dispatches(b, c)
    decreases |a|
  {
    if |a| != 0 {
      assert (a + b)[1..] == a[1..] + b;
      DispatchesAppend(a[1..], b, c);
    } else {
      assert a + b == b;
    }
  }

  lemma {:induction false} DispatchesNone(a: seq<Action>, c: MsgId)
    requires forall x :: x in a ==> !x.Dispatched?
    ensures Dispatches(a, c) == 0
    decreases |a|
  {
    if |a| != 0 {
      assert forall x :: x in a[1..] ==> x in a;
      DispatchesNone(a[1..], c);
    }
  }

  /** UUIDs drawn before index `lo` are never drawn again, when draws are distinct. */
  lemma IssuedDisjoint(uuid: nat -> MsgId, lo: nat, hi: nat)
    requires Injective(uuid)
    ensures Issued(uuid, 0, lo) !! Issued(uuid, lo, hi)
  {
  }

  lemma IssuedGrows(uuid: nat -> MsgId, lo: nat, mid: nat, hi: nat)
    requires lo <= mid <= hi
    ensures Issued(uuid, lo, mid) <= Issued(uuid, lo, hi)
    ensures Issued(uuid, mid, hi) <= Issued(uuid, lo, hi)
  {
  }

  /**
   * A step keeps the invariant, only draws further UUIDs, adds only callbacks
   * under freshly drawn ids, and invokes at most one callback: one that was
   * stored before the step and is gone after it.
   */
  lemma StepFacts(k: Kiosk, input: Input, uuid: nat -> MsgId, c: MsgId)
    requires Valid(k, uuid)
    ensures var o := Step(k, input, uuid);
      && Valid(o.kiosk, uuid)
      && k.next <= o.kiosk.next
      && (forall id :: id in o.kiosk.hopper ==> id in k.hopper || id in Issued(uuid, k.next, o.kiosk.next))
      && Dispatches(o.effects, c) <= 1
      && (Dispatches(o.effects, c) == 1 ==> c in k.hopper && c !in o.kiosk.hopper)
  {
    var o := Step(k, input, uuid);
    match input
    case HopperResponse(parsed, fault) =>
      var d := OnMessage(k.hopper, parsed);
      if d.invoked.Some? {
        var c' := parsed.value.correlId.value;
        DispatchesAppend([Dispatched(c')], o.effects[1..], c);
        assert [Dispatched(c')] + o.effects[1..] == o.effects;
        DispatchesNone(o.effects[1..], c);
        IssuedGrows(uuid, 0, k.next, o.kiosk.next);
      } else {
        assert o.kiosk == k.(hopper := d.callbacks);
      }
    case ValidatorResponse(parsed, fault) =>
      assert !Matches(k.validator, parsed);
    case DeviceEvent(src, parsed) =>
      var r := OnEvent(src, parsed, uuid, k.next);
      var k1 := k.(next := r.next);
      DispatchesNone(o.effects, c);
      IssuedGrows(uuid, 0, k.next, o.kiosk.next);
      IssuedGrows(uuid, k.next, k1.next, o.kiosk.next);
      assert Issued(uuid, 0, k.next) <= Issued(uuid, 0, o.kiosk.next);
      forall id | id in o.kiosk.hopper
        ensures o.kiosk.hopper[id] == ProbeCallback(id)
        ensures id in Issued(uuid, 0, o.kiosk.next)
        ensures id in k.hopper || id in Issued(uuid, k.next, o.kiosk.next)
      {
        IssuedGrows(uuid, 0, k1.next, o.kiosk.next);
        IssuedGrows(uuid, 0, k.next, o.kiosk.next);
      }
  }

  /**
   * After a run: every callback was invoked at most once, and an invoked
   * callback's id is out of the registry for good.
   */
  ghost predicate OnceOnly(o: Outcome, uuid: nat -> MsgId) {
    forall c :: Dispatches(o.effects, c) <= 1
      && (Dispatches(o.effects, c) == 1 ==> c !in o.kiosk.hopper && c in Issued(uuid, 0, o.kiosk.next))
  }

  lemma StepOnceOnly(o: Outcome, input: Input, uuid: nat -> MsgId)
    requires Injective(uuid) && Valid(o.kiosk, uuid) && OnceOnly(o, uuid)
    ensures var s := Step(o.kiosk, input, uuid);
      Valid(s.kiosk, uuid) && OnceOnly(Outcome(s.kiosk, o.effects + s.effects), uuid)
  {
    var k := o.kiosk;
    var s := Step(k, input, uuid);
    StepFacts(k, input, uuid, "");
    IssuedDisjoint(uuid, k.next, s.kiosk.next);
    IssuedGrows(uuid, 0, k.next, s.kiosk.next);
    forall c
      ensures Dispatches(o.effects + s.effects, c) <= 1
      ensures Dispatches(o.effects + s.effects, c) == 1 ==>
        c !in s.kiosk.hopper && c in Issued(uuid, 0, s.kiosk.next)
    {
      StepFacts(k, input, uuid, c);
      DispatchesAppend(o.effects, s.effects, c);
    }
  }

  lemma {:induction false} RunOnceOnly(o: Outcome, inputs: seq<Input>, uuid: nat -> MsgId)
    requires Injective(uuid) && Valid(o.kiosk, uuid) && OnceOnly(o, uuid)
    ensures Valid(Run(o, inputs, uuid).kiosk, uuid) && OnceOnly(Run(o, inputs, uuid), uuid)
    decreases |inputs|
  {
    if |inputs| != 0 {
      var s := Step(o.kiosk, inputs[0], uuid);
      StepOnceOnly(o, inputs[0], uuid);
      RunOnceOnly(Outcome(s.kiosk, o.effects + s.effects), inputs[1..], uuid);
    }
  }

  /**
   * At most once, over any sequence of deliveries (duplicates, retries,
   * events and faults included): no callback is ever invoked twice.
   */
  lemma AtMostOnce(inputs: seq<Input>, uuid: nat -> MsgId, c: MsgId)
    requires Injective(uuid)
    ensures Dispatches(Run(Start(uuid), inputs, uuid).effects, c) <= 1
  {
    var o := Start(uuid);
    forall c'
      ensures Dispatches(o.effects, c') == 0
    {
      DispatchesNone(o.effects, c');
    }
    RunOnceOnly(o, inputs, uuid);
  }

  /**
   * A response whose `correlId` names a stored callback invokes it once, with
   * the probe's full effects when nothing faults, and removes it; the same
   * response delivered again does nothing.
   */
  lemma ResponseDispatch(k: Kiosk, m: KassomatJson, c: MsgId, uuid: nat -> MsgId)
    requires Valid(k, uuid) && m.correlId == Some(c) && c in k.hopper
    ensures var o := Step(k, HopperResponse(Some(m), None), uuid);
      && o.effects == [Dispatched(c)] + HandleResponse(m, uuid, k.next).actions
      && o.kiosk.hopper == k.hopper - {c}
      && Step(o.kiosk, HopperResponse(Some(m), None), uuid) == Outcome(o.kiosk, [])
  {
  }

  /**
   * A payload that does not parse, a response without `correlId`, or one whose
   * id has no stored callback, changes nothing and has no effect.
   */
  lemma UnmatchedResponse(k: Kiosk, parsed: Option<KassomatJson>, fault: Option<nat>, uuid: nat -> MsgId)
    requires !Matches(k.hopper, parsed)
    ensures Step(k, HopperResponse(parsed, fault), uuid) == Outcome(k, [])
  {
  }

  /** Nothing is registered with the validator dispatcher, so no validator response reaches a callback. */
  lemma ValidatorResponsesIgnored(k: Kiosk, parsed: Option<KassomatJson>, fault: Option<nat>, uuid: nat -> MsgId)
    requires Valid(k, uuid)
    ensures Step(k, ValidatorResponse(parsed, fault), uuid) == Outcome(k, [])
  {
  }

  /**
   * A callback's fault is contained: the registry and the request-id index
   * come out the same as without the fault, so every later message is handled
   * alike, and the effects are a prefix of the unfaulted ones.
   */
  lemma FaultContained(k: Kiosk, parsed: Option<KassomatJson>, fault: Option<nat>, uuid: nat -> MsgId)
    ensures var faulted := Step(k, HopperResponse(parsed, fault), uuid);
      var clean := Step(k, HopperResponse(parsed, None), uuid);
      && faulted.kiosk == clean.kiosk
      && |faulted.effects| <= |clean.effects|
      && faulted.effects == clean.effects[..|faulted.effects|]
  {
    var d := OnMessage(k.hopper, parsed);
    if d.invoked.Some? {
      InvokeFaultPrefix(k.(hopper := d.callbacks), parsed.value.correlId.value, parsed.value, fault, uuid);
    }
  }

  /** A fault inside the callback only cuts its effects short. */
  lemma InvokeFaultPrefix(k: Kiosk, c: MsgId, m: KassomatJson, fault: Option<nat>, uuid: nat -> MsgId)
    ensures var faulted := Invoke(k, c, m, fault, uuid);
      var clean := Invoke(k, c, m, None, uuid);
      && faulted.kiosk == clean.kiosk
      && |faulted.effects| <= |clean.effects|
      && faulted.effects == clean.effects[..|faulted.effects|]
  {
    var r := HandleResponse(m, uuid, k.next);
    var done := Truncate(r.actions, fault);
    assert ([Dispatched(c)] + r.actions)[..1 + |done|] == [Dispatched(c)] + done;
  }

  /**
   * A probe cycle registers its callback before it publishes its request, and
   * the hopper's answer to that request reaches the callback.
   */
  lemma ProbeRegistersFirst(k: Kiosk, uuid: nat -> MsgId, m: KassomatJson)
    requires m.correlId == Some(uuid(k.next))
    ensures var o := SubmitTestPayout(k, uuid);
      var id := uuid(k.next);
      && o.effects[0] == Register(id)
      && o.effects[1].request.msgId == Some(id)
      && OnMessage(o.kiosk.hopper, Some(m)).invoked == Some(ProbeCallback(id))
  {
    RegisterThenDeliver(k.hopper, uuid(k.next), ProbeCallback(uuid(k.next)), m);
  }

  /**
   * When draws are distinct, a probe's id is new to the hopper dispatcher:
   * registering it never overwrites a pending callback.
   */
  lemma ProbeIdFresh(k: Kiosk, uuid: nat -> MsgId)
    requires Valid(k, uuid) && Injective(uuid)
    ensures uuid(k.next) !in k.hopper
  {
    IssuedDisjoint(uuid, k.next, k.next + 1);
    assert uuid(k.next) in Issued(uuid, k.next, k.next + 1);
  }

  /** An event on the hopper such as "floated" re-runs the probe after its hints. */
  lemma FloatedReprobes(k: Kiosk, m: KassomatJson, uuid: nat -> MsgId)
    requires m.event == Some("floated") || m.event == Some("cashbox paid")
    ensures var o := Step(k, DeviceEvent(HopperEvents, Some(m)), uuid);
      && o.effects == [Hint(PleaseWait), Repaint, Register(uuid(k.next)),
                       Publish(HopperRequest, ProbeRequest(uuid(k.next)))]
      && o.kiosk.hopper == k.hopper[uuid(k.next) := ProbeCallback(uuid(k.next))]
  {
    var r := OnEvent(HopperEvents, Some(m), uuid, k.next);
    assert r.actions == [Hint(PleaseWait), Repaint, RunProbe] && r.next == k.next;
    var probe := SubmitTestPayout(k, uuid);
    assert [RunProbe][1..] == [];
    assert Perform(k, [RunProbe], uuid) == Outcome(probe.kiosk, probe.effects + []);
    assert [Repaint, RunProbe][1..] == [RunProbe];
    assert r.actions[1..] == [Repaint, RunProbe];
  }
}

=== FILE: messages.dfy ===
/** The wire record shared by every hopper and validator request, response and event. */
module Messages {

  /** An optional value; `None` stands for a Java `null` field. */
  datatype Option<+T> = None | Some(value: T)

  /** The range of a Java `int` / `Integer`. */
  type Int32 = x: int | -0x8000_0000 <= x < 0x8000_0000

  /** Message identifiers are the string form of a UUID. */
  type MsgId = string

  /**
   * `KassomatJson`: every field may be absent. Absent fields are not sent,
   * and unknown fields are ignored when a payload is read.
   */
  datatype KassomatJson = KassomatJson(
    cmd: Option<string>,
    event: Option<string>,
    msgId: Option<MsgId>,
    correlId: Option<MsgId>,
    amount: Option<Int32>,
    error: Option<string>,
    result: Option<string>,
    cc: Option<string>,
    channel: Option<string>,
    channels: Option<string>,
    id: Option<string>,
    note5ok: Option<Int32>,
    note10ok: Option<Int32>,
    note20ok: Option<Int32>,
    note50ok: Option<Int32>)

  /** A freshly constructed record: no field set. */
  const Blank: KassomatJson :=
    KassomatJson(None, None, None, None, None, None, None, None,
                 None, None, None, None, None, None, None)
}

=== FILE: probe.dfy ===
/**
 * The coin-channel capability probe (`submitTestPayout`): a
 * `z-test-all-coin-changes` request to the hopper, and the callback that turns
 * the hopper's answer into inhibit updates and batched channel commands for
 * the validator.
 */
module Probe {
  import opened Messages
  import opened Requests
  import opened Decimal
  import opened Joiner
  import opened Actions

  /** The anonymous `KassomatRequestCallback` of `submitTestPayout`, bound to its request's id. */
  datatype Handler = ProbeCallback(correlId: MsgId)

  /** The validator channels the probe decides on, in the order it visits them. */
  const CHANNELS: seq<nat> := [1, 2, 3]

  /** The answer flag for a channel: 5, 10 and 20 unit notes on channels 1, 2 and 3. */
  function ChannelFlag(m: KassomatJson, channel: nat): Option<Int32> {
    if channel == 1 then m.note5ok
    else if channel == 2 then m.note10ok
    else if channel == 3 then m.note20ok
    else None
  }

  /** `ONE.equals(flag)`: only a present flag equal to 1 accepts. */
  predicate Accepts(flag: Option<Int32>) {
    flag == Some(1)
  }

  predicate Enabled(m: KassomatJson, channel: nat) {
    Accepts(ChannelFlag(m, channel))
  }

  /** Reference definition: the channels of `cs` whose state is `enabled`, in order. */
  function Select(m: KassomatJson, cs: seq<nat>, enabled: bool): seq<nat>
    decreases |cs|
  {
    if |cs| == 0 then []
    else (if Enabled(m, cs[0]) == enabled then [cs[0]] else []) + Select(m, cs[1..], enabled)
  }

  predicate Ascending(s: seq<nat>) {
    forall i, j :: 0 <= i < j < |s| ==> s[i] < s[j]
  }

  /** The two channel lists of one probe answer, and the inhibit updates shown so far. */
  datatype Partition = Partition(toEnable: seq<nat>, toDisable: seq<nat>, inhibits: seq<Action>)

  /** `checkAndUpdate`: shows the channel's inhibit state and files it under enable or disable. */
  function CheckAndUpdate(enable: bool, channel: nat, p: Partition): Partition {
    if enable then
      Partition(p.toEnable + [channel], p.toDisable, p.inhibits + [UpdateInhibit(channel, false)])
    else
      Partition(p.toEnable, p.toDisable + [channel], p.inhibits + [UpdateInhibit(channel, true)])
  }

  /** The inhibit update shown for each channel of `cs`, in order. */
  function Inhibits(m: KassomatJson, cs: seq<nat>): (r: seq<Action>)
    ensures |r| == |cs| && Plain(r)
    ensures forall a :: a in r ==> a.UpdateInhibit?
    decreases |cs|
  {
    if |cs| == 0 then [] else [UpdateInhibit(cs[0], !Enabled(m, cs[0]))] + Inhibits(m, cs[1..])
  }

  /** Each channel's update marks it inhibited iff it is not enabled. */
  lemma {:induction false} InhibitsPerChannel(m: KassomatJson, cs: seq<nat>, i: nat)
    requires i < |cs|
    ensures Inhibits(m, cs)[i] == UpdateInhibit(cs[i], !Enabled(m, cs[i]))
    decreases |cs|
  {
    if i > 0 {
      InhibitsPerChannel(m, cs[1..], i - 1);
    }
  }

  /** `checkAndUpdate` for each channel of `cs` in turn, each with its own answer flag. */
  function CheckAll(m: KassomatJson, cs: seq<nat>, p: Partition): Partition
    decreases |cs|
  {
    if |cs| == 0 then p else CheckAll(m, cs[1..], CheckAndUpdate(Enabled(m, cs[0]), cs[0], p))
  }

  /** The accumulated enable list is the reference selection, appended to what was there. */
  lemma {:induction false} CheckAllEnables(m: KassomatJson, cs: seq<nat>, p: Partition)
    ensures CheckAll(m, cs, p).toEnable == p.toEnable + Select(m, cs, true)
    decreases |cs|
  {
    if |cs| == 0 {
      assert p.toEnable + [] == p.toEnable;
    } else {
      var q := CheckAndUpdate(Enabled(m, cs[0]), cs[0], p);
      CheckAllEnables(m, cs[1..], q);
      assert q.toEnable + Select(m, cs[1..], true) == p.toEnable + Select(m, cs, true);
    }
  }

  /** The accumulated disable list is the reference selection, appended to what was there. */
  lemma {:induction false} CheckAllDisables(m: KassomatJson, cs: seq<nat>, p: Partition)
    ensures CheckAll(m, cs, p).toDisable == p.toDisable + Select(m, cs, false)
    decreases |cs|
  {
    if |cs| == 0 {
      assert p.toDisable + [] == p.toDisable;
    } else {
      var q := CheckAndUpdate(Enabled(m, cs[0]), cs[0], p);
      CheckAllDisables(m, cs[1..], q);
      assert q.toDisable + Select(m, cs[1..], false) == p.toDisable + Select(m, cs, false);
    }
  }

  /** Every channel gets exactly one inhibit update, in channel order. */
  lemma {:induction false} CheckAllInhibits(m: KassomatJson, cs: seq<nat>, p: Partition)
    ensures CheckAll(m, cs, p).inhibits == p.inhibits + Inhibits(m, cs)
    decreases |cs|
  {
    if |cs| == 0 {
      assert p.inhibits + [] == p.inhibits;
    } else {
      var q := CheckAndUpdate(Enabled(m, cs[0]), cs[0], p);
      CheckAllInhibits(m, cs[1..], q);
      var head := [UpdateInhibit(cs[0], !Enabled(m, cs[0]))];
      var rest := Inhibits(m, cs[1..]);
      assert q.inhibits == p.inhibits + head;
      assert Inhibits(m, cs) == head + rest;
      assert (p.inhibits + head) + rest == p.inhibits + (head + rest);
    }
  }

  /**
   * The three `checkAndUpdate` calls of `handleMessage`, for channels 1, 2 and
   * 3 with the `note5ok`, `note10ok` and `note20ok` flags.
   */
  function Classify(m: KassomatJson): (p: Partition)
    ensures p.toEnable == Select(m, CHANNELS, true)
    ensures p.toDisable == Select(m, CHANNELS, false)
    ensures p.inhibits == Inhibits(m, CHANNELS)
  {
    var empty := Partition([], [], []);
    CheckAllEnables(m, CHANNELS, empty);
    CheckAllDisables(m, CHANNELS, empty);
    CheckAllInhibits(m, CHANNELS, empty);
    CheckAll(m, CHANNELS, empty)
  }

  lemma {:induction false} SelectMembers(m: KassomatJson, cs: seq<nat>, enabled: bool, c: nat)
    ensures c in Select(m, cs, enabled) <==> c in cs && Enabled(m, c) == enabled
    decreases |cs|
  {
    if |cs| != 0 {
      SelectMembers(m, cs[1..], enabled, c);
      assert cs == [cs[0]] + cs[1..];
    }
  }

  lemma {:induction false} SelectSplits(m: KassomatJson, cs: seq<nat>)
    ensures multiset(Select(m, cs, true) + Select(m, cs, false)) == multiset(cs)
    decreases |cs|
  {
    if |cs| != 0 {
      SelectSplits(m, cs[1..]);
      assert cs == [cs[0]] + cs[1..];
    }
  }

  lemma {:induction false} SelectAscending(m: KassomatJson, cs: seq<nat>, enabled: bool)
    requires Ascending(cs)
    ensures Ascending(Select(m, cs, enabled))
    decreases |cs|
  {
    if |cs| != 0 {
      SelectAscending(m, cs[1..], enabled);
      var rest := Select(m, cs[1..], enabled);
      if Enabled(m, cs[0]) == enabled {
        forall k | 0 <= k < |rest|
          ensures cs[0] < rest[k]
        {
          SelectMembers(m, cs[1..], enabled, rest[k]);
          var j :| 0 <= j < |cs[1..]| && cs[1..][j] == rest[k];
          assert cs[j + 1] == rest[k];
        }
        assert Select(m, cs, enabled) == [cs[0]] + rest;
      } else {
        assert Select(m, cs, enabled) == rest;
      }
    }
  }

  /** Selecting on and off channels splits an ascending list into two ascending lists. */
  lemma SelectPartitions(m: KassomatJson, cs: seq<nat>)
    requires Ascending(cs)
    ensures multiset(Select(m, cs, true) + Select(m, cs, false)) == multiset(cs)
    ensures Ascending(Select(m, cs, true)) && Ascending(Select(m, cs, false))
  {
    SelectSplits(m, cs);
    SelectAscending(m, cs, true);
    SelectAscending(m, cs, false);
  }

  /** Channels 1, 2 and 3 are split exactly between the two lists, each in ascending order. */
  lemma ClassifyPartitions(m: KassomatJson)
    ensures var p := Classify(m);
      && multiset(p.toEnable + p.toDisable) == multiset(CHANNELS)
      && Ascending(p.toEnable) && Ascending(p.toDisable)
  {
    var p := Classify(m);
    assert p.toEnable + p.toDisable == Select(m, CHANNELS, true) + Select(m, CHANNELS, false);
    SelectPartitions(m, CHANNELS);
  }

  /** A channel is enabled iff its flag is exactly 1; an absent flag or any other value disables it. */
  lemma ClassifyMembership(m: KassomatJson, c: nat)
    ensures c in Classify(m).toEnable <==> c in CHANNELS && Enabled(m, c)
    ensures c in Classify(m).toDisable <==> c in CHANNELS && !Enabled(m, c)
  {
    SelectMembers(m, CHANNELS, true, c);
    SelectMembers(m, CHANNELS, false, c);
  }

  /** The decision reads only the 5, 10 and 20 flags: `note50ok` and every other field are ignored. */
  lemma ClassifyReadsThreeFlags(m1: KassomatJson, m2: KassomatJson)
    requires m1.note5ok == m2.note5ok && m1.note10ok == m2.note10ok && m1.note20ok == m2.note20ok
    ensures Classify(m1) == Classify(m2)
  {
  }

  /** `String.valueOf` of each channel. */
  function ChannelNames(cs: seq<nat>): (r: seq<string>)
    ensures |r| == |cs|
    ensures forall i :: 0 <= i < |cs| ==> r[i] == NatToString(cs[i])
  {
    seq(|cs|, i requires 0 <= i < |cs| => NatToString(cs[i]))
  }

  /** The `channels` text of a batched channel command. */
  function ChannelSpec(cs: seq<nat>): string {
    Concat(ChannelNames(cs))
  }

  /** A channel list survives the trip through its `channels` text. */
  lemma ChannelSpecRoundTrip(cs: seq<nat>)
    ensures |Split(ChannelSpec(cs))| == |cs|
    ensures forall i :: 0 <= i < |cs| ==>
      AllDigits(Split(ChannelSpec(cs))[i]) && ParseNat(Split(ChannelSpec(cs))[i]) == cs[i]
  {
    var names := ChannelNames(cs);
    forall i | 0 <= i < |names|
      ensures SEP !in names[i]
    {
      assert AllDigits(names[i]);
    }
    SplitConcat(names);
    forall i | 0 <= i < |cs|
      ensures ParseNat(names[i]) == cs[i]
    {
      ParseNatToString(cs[i]);
    }
  }

  /** The request the probe publishes on the hopper request topic. */
  function ProbeRequest(id: MsgId): (r: KassomatJson)
    ensures IsRequest(r, id) && Decode(r) == Some(TestAllCoinChanges)
  {
    ZTestAllCoinChanges(id)
  }

  /** What a list of off channels sends: one `disable-channels` for all of them, if there are any. */
  function DisableSend(off: seq<nat>): seq<Sent> {
    if |off| > 0 then [Sent(ValidatorRequest, Some(DisableChannelSet(ChannelSpec(off))))] else []
  }

  /** What a list of on channels sends: one `enable-channels` for all of them, if there are any. */
  function EnableSend(on: seq<nat>): seq<Sent> {
    if |on| > 0 then [Sent(ValidatorRequest, Some(EnableChannelSet(ChannelSpec(on))))] else []
  }

  /** The `disable-channels` publish for the off channels, if any, under `uuid(next)`. */
  function Disabling(p: Partition, uuid: nat -> MsgId, next: nat): seq<Action> {
    if |p.toDisable| > 0 then [Publish(ValidatorRequest, DisableChannels(ChannelSpec(p.toDisable), uuid(next)))] else []
  }

  /** The `enable-channels` publish for the on channels under `uuid(next)`, or the no-coins hint when there are none. */
  function Enabling(p: Partition, uuid: nat -> MsgId, next: nat): seq<Action> {
    if |p.toEnable| > 0 then [Publish(ValidatorRequest, EnableChannels(ChannelSpec(p.toEnable), uuid(next)))] else [Hint(NoCoins)]
  }

  /**
   * The publishing tail of `handleMessage`: `disable-channels` if any channel is
   * off, then `enable-channels` if any is on, or the no-coins hint instead.
   */
  function Batches(p: Partition, uuid: nat -> MsgId, next: nat): (r: Routed)
    ensures 1 <= |r.actions| <= 2 && Plain(r.actions)
    ensures next <= r.next
  {
    var disabling := Disabling(p, uuid, next);
    var next1 := next + |disabling|;
    Routed(disabling + Enabling(p, uuid, next1), if |p.toEnable| > 0 then next1 + 1 else next1)
  }

  /** The batches publish `disable-channels` iff a channel is off, then `enable-channels` iff one is on. */
  lemma BatchesSends(p: Partition, uuid: nat -> MsgId, next: nat)
    ensures Sends(Batches(p, uuid, next).actions) == DisableSend(p.toDisable) + EnableSend(p.toEnable)
  {
    var disabling := Disabling(p, uuid, next);
    SendsAppend(disabling, Enabling(p, uuid, next + |disabling|));
  }

  /** The no-coins hint stands in for the enable batch, last, exactly when no channel is on. */
  lemma BatchesNoCoins(p: Partition, uuid: nat -> MsgId, next: nat)
    ensures multiset(Batches(p, uuid, next).actions)[Hint(NoCoins)] == if |p.toEnable| == 0 then 1 else 0
    ensures var a := Batches(p, uuid, next).actions; |p.toEnable| == 0 ==> a[|a| - 1] == Hint(NoCoins)
  {
  }

  /** The body of `handleMessage` after the three `checkAndUpdate` calls. */
  function Respond(p: Partition, uuid: nat -> MsgId, next: nat): (r: Routed)
    ensures |r.actions| >= |p.inhibits| + 2 && r.actions[..|p.inhibits|] == p.inhibits
    ensures r.actions[|r.actions| - 1] == Repaint
    ensures next <= r.next
  {
    var b := Batches(p, uuid, next);
    Routed(p.inhibits + (b.actions + [Repaint]), b.next)
  }

  /** Inhibit updates that neither probe, register nor dispatch leave the whole response free of those. */
  lemma RespondPlain(p: Partition, uuid: nat -> MsgId, next: nat)
    requires Plain(p.inhibits)
    ensures Plain(Respond(p, uuid, next).actions)
  {
    var b := Batches(p, uuid, next);
    PlainAppend(b.actions, [Repaint]);
    PlainAppend(p.inhibits, b.actions + [Repaint]);
  }

  /**
   * `handleMessage` of the probe callback: inhibit updates for channels 1-3,
   * the batched channel commands, then a repaint. UUIDs for the publishes are
   * drawn from `uuid` starting at index `next`.
   */
  function HandleResponse(m: KassomatJson, uuid: nat -> MsgId, next: nat): (r: Routed)
    ensures |r.actions| >= 5 && r.actions[..|CHANNELS|] == Inhibits(m, CHANNELS)
    ensures r.actions[|r.actions| - 1] == Repaint
    ensures Plain(r.actions)
    ensures next <= r.next
  {
    var p := Classify(m);
    RespondPlain(p, uuid, next);
    Respond(p, uuid, next)
  }

  /** The inhibit updates and the repaint publish nothing: the response sends exactly its batches. */
  lemma RespondSends(p: Partition, uuid: nat -> MsgId, next: nat)
    requires forall a :: a in p.inhibits ==> !a.Publish?
    ensures Sends(Respond(p, uuid, next).actions) == Sends(Batches(p, uuid, next).actions)
  {
    var b := Batches(p, uuid, next);
    assert Respond(p, uuid, next).actions == p.inhibits + (b.actions + [Repaint]);
    SendsAppend(p.inhibits, b.actions + [Repaint]);
    SendsAppend(b.actions, [Repaint]);
    SendsNone(p.inhibits);
    SendsNone([Repaint]);
  }

  /**
   * The probe publishes `disable-channels` for the off channels iff there are
   * any, and always before `enable-channels` for the on channels, which is
   * published iff there are any.
   */
  lemma HandleResponseSends(m: KassomatJson, uuid: nat -> MsgId, next: nat)
    ensures Sends(HandleResponse(m, uuid, next).actions) ==
      DisableSend(Select(m, CHANNELS, false)) + EnableSend(Select(m, CHANNELS, true))
  {
    var p := Classify(m);
    RespondSends(p, uuid, next);
    BatchesSends(p, uuid, next);
  }

  /**
   * The response is exactly the three inhibit updates, the sends, the no-coins
   * hint when nothing is enabled, and the repaint: nothing else is shown.
   */
  lemma HandleResponseLength(m: KassomatJson, uuid: nat -> MsgId, next: nat)
    ensures |HandleResponse(m, uuid, next).actions| ==
      |CHANNELS| + |DisableSend(Select(m, CHANNELS, false)) + EnableSend(Select(m, CHANNELS, true))|
      + (if Select(m, CHANNELS, true) == [] then 1 else 0) + 1
  {
  }

  /** The inhibit updates and the repaint are no hints: the response shows the no-coins hint as often as its batches do. */
  lemma RespondNoCoins(p: Partition, uuid: nat -> MsgId, next: nat)
    requires forall a :: a in p.inhibits ==> a.UpdateInhibit?
    ensures multiset(Respond(p, uuid, next).actions)[Hint(NoCoins)] == multiset(Batches(p, uuid, next).actions)[Hint(NoCoins)]
    ensures var a := Respond(p, uuid, next).actions; |p.toEnable| == 0 ==> a[|a| - 2] == Hint(NoCoins)
  {
    var b := Batches(p, uuid, next);
    var a := p.inhibits + (b.actions + [Repaint]);
    assert Respond(p, uuid, next).actions == a;
    assert Hint(NoCoins) !in p.inhibits;
    assert multiset(p.inhibits)[Hint(NoCoins)] == 0;
    BatchesNoCoins(p, uuid, next);
    assert a[|a| - 2] == b.actions[|b.actions| - 1];
  }

  /**
   * The no-coins hint is given exactly once when no channel is to be enabled,
   * in the enable publish's place just before the repaint, and otherwise not at all.
   */
  lemma HandleResponseNoCoins(m: KassomatJson, uuid: nat -> MsgId, next: nat)
    ensures multiset(HandleResponse(m, uuid, next).actions)[Hint(NoCoins)] ==
      if Select(m, CHANNELS, true) == [] then 1 else 0
    ensures Select(m, CHANNELS, true) == [] ==>
      var a := HandleResponse(m, uuid, next).actions; a[|a| - 2] == Hint(NoCoins)
  {
    var p := Classify(m);
    RespondNoCoins(p, uuid, next);
    BatchesNoCoins(p, uuid, next);
  }

  lemma ChannelSpecExamples()
    ensures ChannelSpec([2]) == "2"
    ensures ChannelSpec([1, 3]) == "1,3"
    ensures ChannelSpec([1, 2, 3]) == "1,2,3"
  {
    assert ChannelNames([2]) == ["2"];
    assert ChannelNames([1, 3]) == ["1", "3"];
    assert ChannelNames([1, 2, 3]) == ["1", "2", "3"];
    ConcatOfNonEmpty(["2"]);
    ConcatOfNonEmpty(["1", "3"]);
    ConcatOfNonEmpty(["1", "2", "3"]);
    assert Join(["1", "3"]) == "1" + [SEP] + Join(["3"]);
    assert Join(["1", "2", "3"]) == "1" + [SEP] + Join(["2", "3"]);
    assert Join(["2", "3"]) == "2" + [SEP] + Join(["3"]);
  }

  /** Flags (1, 0, 1): channel 2 is disabled first, then channels 1 and 3 are enabled. */
  lemma ProbeMixedExample(m: KassomatJson, uuid: nat -> MsgId, next: nat)
    requires m.note5ok == Some(1) && m.note10ok == Some(0) && m.note20ok == Some(1)
    ensures var r := HandleResponse(m, uuid, next);
      && Sends(r.actions) == [Sent(ValidatorRequest, Some(DisableChannelSet("2"))),
                              Sent(ValidatorRequest, Some(EnableChannelSet("1,3")))]
      && multiset(r.actions)[Hint(NoCoins)] == 0
  {
    assert Select(m, [3], true) == [3];
    assert Select(m, [2, 3], true) == [3];
    assert Select(m, CHANNELS, true) == [1, 3];
    assert Select(m, [3], false) == [];
    assert Select(m, [2, 3], false) == [2];
    assert Select(m, CHANNELS, false) == [2];
    ChannelSpecExamples();
    HandleResponseSends(m, uuid, next);
    HandleResponseNoCoins(m, uuid, next);
  }

  /** Flags (0, 0, 0): all three channels are disabled and the no-coins hint replaces the enable publish. */
  lemma ProbeNoCoinsExample(m: KassomatJson, uuid: nat -> MsgId, next: nat)
    requires m.note5ok == Some(0) && m.note10ok == Some(0) && m.note20ok == Some(0)
    ensures var r := HandleResponse(m, uuid, next);
      && Sends(r.actions) == [Sent(ValidatorRequest, Some(DisableChannelSet("1,2,3")))]
      && multiset(r.actions)[Hint(NoCoins)] == 1
  {
    assert Select(m, [3], true) == [];
    assert Select(m, [2, 3], true) == [];
    assert Select(m, CHANNELS, true) == [];
    assert Select(m, [3], false) == [3];
    assert Select(m, [2, 3], false) == [2, 3];
    assert Select(m, CHANNELS, false) == [1, 2, 3];
    ChannelSpecExamples();
    HandleResponseSends(m, uuid, next);
    HandleResponseNoCoins(m, uuid, next);
  }
}

=== FILE: requests.dfy ===
/** The outbound requests the kiosk builds for the hopper and the validator. */
module Requests {
  import opened Messages

  const DO_PAYOUT: string := "do-payout"
  const DISABLE_CHANNELS: string := "disable-channels"
  const ENABLE_CHANNELS: string := "enable-channels"
  const DISABLE: string := "disable"
  const ENABLE: string := "enable"
  const TEST_ALL_COIN_CHANGES: string := "z-test-all-coin-changes"

  /** Every note channel of the validator, as sent by `inhibitAllChannels`. */
  const ALL_NOTE_CHANNELS: string := "1,2,3,4,5,6,7,8"

  /** What a request asks of its device, independent of its message id. */
  datatype Command =
    | PayOut(amount: Int32)
    | DisableChannelSet(channels: string)
    | EnableChannelSet(channels: string)
    | DisableDevice
    | EnableDevice
    | TestAllCoinChanges

  /**
   * How a device reads a request: the command word selects the command,
   * and the command's payload field must be present.
   */
  function Decode(m: KassomatJson): (c: Option<Command>)
    ensures c.Some? ==> m.cmd.Some?
  {
    match m.cmd
    case None => None
    case Some(word) =>
      if word == DO_PAYOUT then
        (if m.amount.Some? then Some(PayOut(m.amount.value)) else None)
      else if word == DISABLE_CHANNELS then
        (if m.channels.Some? then Some(DisableChannelSet(m.channels.value)) else None)
      else if word == ENABLE_CHANNELS then
        (if m.channels.Some? then Some(EnableChannelSet(m.channels.value)) else None)
      else if word == DISABLE then Some(DisableDevice)
      else if word == ENABLE then Some(EnableDevice)
      else if word == TEST_ALL_COIN_CHANGES then Some(TestAllCoinChanges)
      else None
  }

  /** A request as sent: a command and a message id, never an event or a correlation id. */
  predicate IsRequest(m: KassomatJson, id: MsgId) {
    && m.msgId == Some(id)
    && m.event.None?
    && m.correlId.None?
  }

  /** `createSmartPayoutRequest`: a bare request carrying only its command word and id. */
  function SmartPayoutRequest(cmd: string, id: MsgId): (r: KassomatJson)
    ensures IsRequest(r, id) && r.cmd == Some(cmd)
  {
    Blank.(cmd := Some(cmd), msgId := Some(id))
  }

  function DoPayout(amount: Int32, id: MsgId): (r: KassomatJson)
    ensures IsRequest(r, id) && Decode(r) == Some(PayOut(amount))
  {
    SmartPayoutRequest(DO_PAYOUT, id).(amount := Some(amount))
  }

  function InhibitAllChannels(id: MsgId): (r: KassomatJson)
    ensures IsRequest(r, id) && Decode(r) == Some(DisableChannelSet(ALL_NOTE_CHANNELS))
  {
    SmartPayoutRequest(DISABLE_CHANNELS, id).(channels := Some(ALL_NOTE_CHANNELS))
  }

  function EnableChannels(channels: string, id: MsgId): (r: KassomatJson)
    ensures IsRequest(r, id) && Decode(r) == Some(EnableChannelSet(channels))
  {
    SmartPayoutRequest(ENABLE_CHANNELS, id).(channels := Some(channels))
  }

  function DisableChannels(channels: string, id: MsgId): (r: KassomatJson)
    ensures IsRequest(r, id) && Decode(r) == Some(DisableChannelSet(channels))
  {
    SmartPayoutRequest(DISABLE_CHANNELS, id).(channels := Some(channels))
  }

  function Disable(id: MsgId): (r: KassomatJson)
    ensures IsRequest(r, id) && Decode(r) == Some(DisableDevice)
  {
    SmartPayoutRequest(DISABLE, id)
  }

  function Enable(id: MsgId): (r: KassomatJson)
    ensures IsRequest(r, id) && Decode(r) == Some(EnableDevice)
  {
    SmartPayoutRequest(ENABLE, id)
  }

  function ZTestAllCoinChanges(id: MsgId): (r: KassomatJson)
    ensures IsRequest(r, id) && Decode(r) == Some(TestAllCoinChanges)
  {
    SmartPayoutRequest(TEST_ALL_COIN_CHANGES, id)
  }

  /** The request the kiosk builds for a command. */
  function Encode(c: Command, id: MsgId): KassomatJson {
    match c
    case PayOut(a) => DoPayout(a, id)
    case DisableChannelSet(s) => DisableChannels(s, id)
    case EnableChannelSet(s) => EnableChannels(s, id)
    case DisableDevice => Disable(id)
    case EnableDevice => Enable(id)
    case TestAllCoinChanges => ZTestAllCoinChanges(id)
  }

  /** Every request the kiosk builds is read back by its device as the command it was built for. */
  lemma RequestRoundTrip(c: Command, id: MsgId)
    ensures Decode(Encode(c, id)) == Some(c)
    ensures IsRequest(Encode(c, id), id)
  {
  }

  /** Two requests built for different commands differ on the wire, whatever their ids. */
  lemma EncodeInjective(c1: Command, c2: Command, id1: MsgId, id2: MsgId)
    requires Encode(c1, id1) == Encode(c2, id2)
    ensures c1 == c2 && id1 == id2
  {
    RequestRoundTrip(c1, id1);
    RequestRoundTrip(c2, id2);
  }
}

=== FILE: router.dfy ===
/**
 * The three event listeners of the kiosk (payout session, banknote validator,
 * coin hopper): each maps one event to an ordered list of actions.
 */
module Router {
  import opened Messages
  import opened Requests
  import opened Decimal
  import opened Actions

  /** The event topic a listener is attached to. */
  datatype Source = PayoutEvents | ValidatorEvents | HopperEvents

  /** The event names each listener's `switch` lists. */
  function Listed(src: Source): set<string> {
    match src
    case PayoutEvents => {"started", "exiting"}
    case ValidatorEvents => {"credit", "read", "reading", "rejecting", "rejected"}
    case HopperEvents => {"disabled", "dispensing", "smart emptied", "smart emptying",
                          "floated", "cashbox paid", "coin credit"}
  }

  /** The events after which the kiosk re-learns its coin channels. */
  predicate ProbeTrigger(src: Source, e: string) {
    || (src == PayoutEvents && e == "started")
    || (src == HopperEvents && e in {"floated", "cashbox paid", "coin credit"})
  }

  /**
   * Reference definition of the events that leave no trace: a missing event
   * name (the `switch` throws and the listener catches it), a name the
   * `switch` does not list, "read", and an emptied report without an amount.
   */
  predicate Silent(src: Source, event: Option<string>, amount: Option<Int32>) {
    || event.None?
    || event.value !in Listed(src)
    || (src == ValidatorEvents && event.value == "read")
    || (src == HopperEvents && event.value in {"smart emptied", "smart emptying"} && amount.None?)
  }

  /** The payout-session listener. */
  function PayoutListener(e: string): seq<Action> {
    if e == "started" then [RunProbe]
    else if e == "exiting" then [Hint(Sorry), Repaint]
    else []
  }

  /**
   * The validator listener. On "credit" it disables all note channels and the
   * validator, then asks the hopper to pay the credited amount out; when the
   * amount is missing, unboxing it throws after the two validator publishes,
   * so only the payout is lost.
   */
  function ValidatorListener(e: string, amount: Option<Int32>, uuid: nat -> MsgId, next: nat): Routed {
    if e == "credit" then
      var first := [Publish(ValidatorRequest, InhibitAllChannels(uuid(next))),
                    Publish(ValidatorRequest, Disable(uuid(next + 1)))];
      if amount.Some? then
        Routed(first + [Publish(HopperRequest, DoPayout(amount.value, uuid(next + 2)))], next + 3)
      else Routed(first, next + 2)
    else if e == "reading" then Routed([Hint(PleaseWait), Repaint], next)
    else if e == "rejecting" then Routed([Hint(Sorry), Repaint], next)
    else if e == "rejected" then Routed([Hint(Idle), Repaint], next)
    else Routed([], next)
  }

  /** The hopper listener. */
  function HopperListener(e: string, amount: Option<Int32>, uuid: nat -> MsgId, next: nat): Routed {
    if e == "disabled" then Routed([Publish(HopperRequest, Enable(uuid(next)))], next + 1)
    else if e == "dispensing" then Routed([Hint(Dispensing), Repaint], next)
    else if e == "smart emptied" || e == "smart emptying" then
      Routed(if amount.Some? then [UpdateEmptied(FormatCents(amount.value))] else [], next)
    else if e == "floated" || e == "cashbox paid" then Routed([Hint(PleaseWait), Repaint, RunProbe], next)
    else if e == "coin credit" then Routed([RunProbe], next)
    else Routed([], next)
  }

  /**
   * One parsed event on one event topic. UUIDs for the requests built are
   * drawn from `uuid` starting at index `next`.
   */
  function Route(src: Source, event: Option<string>, amount: Option<Int32>, uuid: nat -> MsgId, next: nat): (r: Routed)
    ensures r.actions == [] <==> Silent(src, event, amount)
    ensures RunProbe in r.actions <==> event.Some? && ProbeTrigger(src, event.value)
    ensures RunProbe in r.actions ==> r.actions[|r.actions| - 1] == RunProbe
    ensures forall a :: a in r.actions ==> !a.Register? && !a.Dispatched?
    ensures next <= r.next
  {
    match event
    case None => Routed([], next)
    case Some(e) =>
      match src
      case PayoutEvents => Routed(PayoutListener(e), next)
      case ValidatorEvents => ValidatorListener(e, amount, uuid, next)
      case HopperEvents => HopperListener(e, amount, uuid, next)
  }

  /** A listener: a payload that does not parse is dropped with no action. */
  function OnEvent(src: Source, parsed: Option<KassomatJson>, uuid: nat -> MsgId, next: nat): (r: Routed)
    ensures parsed.None? ==> r.actions == []
    ensures parsed.Some? ==> r == Route(src, parsed.value.event, parsed.value.amount, uuid, next)
  {
    match parsed
    case None => Routed([], next)
    case Some(m) => Route(src, m.event, m.amount, uuid, next)
  }

  /**
   * A credited note yields, in order: a validator `disable-channels` for all
   * eight note channels, a validator `disable`, and a hopper `do-payout` of
   * the credited amount.
   */
  lemma CreditOrder(amount: Int32, uuid: nat -> MsgId, next: nat)
    ensures Sends(Route(ValidatorEvents, Some("credit"), Some(amount), uuid, next).actions) ==
      [Sent(ValidatorRequest, Some(DisableChannelSet(ALL_NOTE_CHANNELS))),
       Sent(ValidatorRequest, Some(DisableDevice)),
       Sent(HopperRequest, Some(PayOut(amount)))]
    ensures var a := Route(ValidatorEvents, Some("credit"), Some(amount), uuid, next).actions;
      |a| == 3 && forall x :: x in a ==> x.Publish?
  {
    var a := Route(ValidatorEvents, Some("credit"), Some(amount), uuid, next).actions;
    assert a[2..][1..] == [];
    assert Sends(a[2..]) == [Sent(HopperRequest, Some(PayOut(amount)))];
    assert a[1..][1..] == a[2..];
    assert Sends(a[1..]) == [Sent(ValidatorRequest, Some(DisableDevice))] + Sends(a[2..]);
  }

  /** A credit without an amount still disables the validator but requests no payout. */
  lemma CreditWithoutAmount(uuid: nat -> MsgId, next: nat)
    ensures Sends(Route(ValidatorEvents, Some("credit"), None, uuid, next).actions) ==
      [Sent(ValidatorRequest, Some(DisableChannelSet(ALL_NOTE_CHANNELS))),
       Sent(ValidatorRequest, Some(DisableDevice))]
    ensures var a := Route(ValidatorEvents, Some("credit"), None, uuid, next).actions;
      |a| == 2 && forall x :: x in a ==> x.Publish?
  {
    var r := Route(ValidatorEvents, Some("credit"), None, uuid, next);
    assert r.actions[1..][1..] == [];
  }

  /** Only "credit" on the validator and "disabled" on the hopper publish anything directly. */
  lemma {:induction false} RouteSends(src: Source, event: Option<string>, amount: Option<Int32>, uuid: nat -> MsgId, next: nat)
    ensures Sends(Route(src, event, amount, uuid, next).actions) != [] <==>
      event.Some? && ((src == ValidatorEvents && event.value == "credit") || (src == HopperEvents && event.value == "disabled"))
  {
    var r := Route(src, event, amount, uuid, next);
    if event.Some? && src == ValidatorEvents && event.value == "credit" {
      assert Sends(r.actions)[0] == Sent(ValidatorRequest, Some(DisableChannelSet(ALL_NOTE_CHANNELS)));
    } else if event.Some? && src == HopperEvents && event.value == "disabled" {
      assert Sends(r.actions)[0] == Sent(HopperRequest, Some(EnableDevice));
    } else {
      SendsNone(r.actions);
    }
  }

  /** The panel-only events: each shows its hint and repaints, and nothing else. */
  lemma PanelEvents(amount: Option<Int32>, uuid: nat -> MsgId, next: nat)
    ensures Route(PayoutEvents, Some("exiting"), amount, uuid, next).actions == [Hint(Sorry), Repaint]
    ensures Route(ValidatorEvents, Some("reading"), amount, uuid, next).actions == [Hint(PleaseWait), Repaint]
    ensures Route(ValidatorEvents, Some("rejecting"), amount, uuid, next).actions == [Hint(Sorry), Repaint]
    ensures Route(ValidatorEvents, Some("rejected"), amount, uuid, next).actions == [Hint(Idle), Repaint]
    ensures Route(HopperEvents, Some("dispensing"), amount, uuid, next).actions == [Hint(Dispensing), Repaint]
  {
  }

  /** A hopper that reports itself disabled is re-enabled with a fresh `enable` request. */
  lemma DisabledReenables(amount: Option<Int32>, uuid: nat -> MsgId, next: nat)
    ensures var r := Route(HopperEvents, Some("disabled"), amount, uuid, next);
      && |r.actions| == 1
      && Sends(r.actions) == [Sent(HopperRequest, Some(EnableDevice))] && r.actions[0].request.msgId == Some(uuid(next))
  {
  }

  /** "started" on the payout topic and "coin credit" on the hopper do nothing but re-run the probe. */
  lemma ProbeOnlyEvents(amount: Option<Int32>, uuid: nat -> MsgId, next: nat)
    ensures Route(PayoutEvents, Some("started"), amount, uuid, next).actions == [RunProbe]
    ensures Route(HopperEvents, Some("coin credit"), amount, uuid, next).actions == [RunProbe]
  {
  }

  /**
   * An emptied report with an amount shows exactly that amount, in units with
   * two fraction digits: 500 cents show as "5.00".
   */
  lemma EmptiedDisplay(e: string, amount: Int32, uuid: nat -> MsgId, next: nat)
    requires e == "smart emptied" || e == "smart emptying"
    ensures var r := Route(HopperEvents, Some(e), Some(amount), uuid, next);
      |r.actions| == 1 && r.actions[0].UpdateEmptied?
      && ParseCents(r.actions[0].text) == Some(amount as int)
  {
    ParseFormatCents(amount);
  }
}
